=== FILE: README.md ===
# Movie-app backend core, modelled in Dafny

This project models the three pieces of a movie/TV streaming backend
(Express + Mongoose, TypeScript) that carry logic of their own:

- **Watch history** (`watch_history.dfy`, module `WatchHistory`). The
  collection holds one watch record per (user, movie). `UpdateWatchProgress`
  is an upsert. It computes `progress = Math.round(currentTime / duration * 100)`
  as the exact rational rounding of 100t/d, `(200*t + d) / (2*d)` on
  integers, with no clamping (the code's double arithmetic can differ by one;
  see Left out), and sets
  `completed = progress > 90`. `WatchDocument.UpdateProgress` is the
  per-document update, which recomputes against the stored duration. The two
  read queries filter, sort by `lastPlayedAt` descending and apply Mongo's limit, where a limit
  of 0 means "no limit":
  - `UserHistory` has no completion filter.
  - `ContinueWatching` keeps records that are not completed and have
    0 < progress < 90.

  Mongo leaves the order of equal `lastPlayedAt` values unspecified. The model
  sorts stably, so ties keep the collection's insertion order. The stated
  properties of the queries and of the home screen hold whatever order ties
  are given.

  The store is a class. It holds a `map` from (user, movie) to record, plus the
  insertion order of the keys. Its invariant `Valid()` says:
  - every record sits under its own key;
  - every record's derived fields agree with its raw times;
  - the order lists each key exactly once.
- **Subscriptions** (`subscription.dfy`, module `Subscriptions`).
  - `CreateSubscription` accepts only "monthly" and "yearly". It stores an
    inactive/pending subscription priced 149999 or 1619999 that runs one month
    or twelve months.
  - `ProcessSubscriptionPayment` runs the short-circuit validation chain
    `Validate` in a fixed order: fields present, 16-digit card, 3-digit CVV,
    expiry, subscription exists, not already paid. Only then does it consult the
    authorizer's answer, which is a parameter.
  - Only an authorized payment changes state. It moves pending/inactive to
    completed/active and stores the verification id. The store's invariant
    keeps "active exactly when paid".
  - Refusals map to HTTP responses (`ErrorResponse`, `AuthorizerErrorResponse`).
  - The logged card details are sanitized (`MaskCardNumber`, `Sanitized`).
- **Home screen** (`home.dfy`, module `Home`).
  - `TransformMedia`: the title is chosen by media type, image URLs are
    prefixed (null when the path is falsy), genre ids default to `[]`, and the
    release date falls back to the first-air date.
  - `GetHomeScreenData` assembles the response: a 400 without a user id;
    otherwise at most three continue-watching entries, and trending movies
    followed by trending TV.
  - `HomeShowsTopThreeResumable` ties this to the store. The home screen shows
    at most three resumable titles, the user's most recently played ones,
    and all of them when there are fewer than three.

`wrappers.dfy` holds `Option`, `Result`, `HttpError` and `Min`.

Inputs that the running system takes from its environment are parameters here:
- the clock (`now`, `today`);
- the authorizer's outcome;
- the catalog lists fetched over HTTP;
- ids generated by the database, which the subscription store hands out from a
  counter.

Times are integer seconds and instants are integer time stamps. Subscription
dates are `Moment(monthIndex, sinceMonthStart)`, in local time. The expiry date
`new Date(expiryYear, expiryMonth - 1)` is the first instant of month
`12 * year + month - 1`. This includes the Date constructor's reading of years
0..99 as 1900..1999 and its carrying of month overflow into the year.

Behaviour worth knowing, which the model keeps as the code has it:
- Card format is checked before the subscription is looked up. So a paid
  subscription with a malformed card number gets "Invalid card number format",
  not "already paid" (`FifteenDigitCardRefused`). The "already paid" refusal
  is reached only by a request whose card passes every format and expiry
  check.
- The expiry check compares the first midnight of the expiry month with the
  current instant. A card is therefore refused as expired during its own
  expiry month (`ExpiringMonthRefused`).
- Neither progress update rejects `duration <= 0`. The model requires a
  positive duration instead (see Left out).
- A one- or two-digit expiry year is read as 1900..1999, so from 2000 on
  such a card is refused as expired, whatever century was meant
  (`ExpiryTwoDigitYear`, `TwoDigitYearExpired`).
- The continue-watching query's own default limit is 10. The home screen then
  keeps 3.

## Model

| member | source | states |
|---|---|---|
| WatchHistory.ParseQuality | models/watch.history.models.ts:57-61 | only "360p", "480p", "720p", "1080p" are accepted, each naming its own quality; anything else is refused |
| WatchHistory.QualityRoundTrip | models/watch.history.models.ts:57-61 | every quality's name parses back to that quality |
| WatchHistory.RoundPercent | models/watch.history.models.ts:120 | the result p is Math.round(100*t/d): p - 1/2 <= 100*t/d < p + 1/2, with no clamping |
| WatchHistory.RoundPercentUnique | models/watch.history.models.ts:120 | no other integer meets the rounding bound, so the progress is determined by the times |
| WatchHistory.ProgressNotClamped | models/watch.history.models.ts:120 | when currentTime >= duration, progress is at least 100 (it is not capped) |
| WatchHistory.CompletionBoundary | models/watch.history.models.ts:120-121 | 810 of 900 s is 90% and not completed; 820 of 900 s is 91% and completed |
| WatchHistory.NinetyIsNeither | models/watch.history.models.ts:104-108 | a consistent record at exactly 90% is neither completed nor eligible for continue-watching |
| WatchHistory.WithProgress | models/watch.history.models.ts:123-133 | on an existing record, the upsert sets currentTime, duration, progress, completed and lastPlayedAt consistently; key, title, poster, quality and watchedAt are kept |
| WatchHistory.Inserted | models/watch.history.models.ts:51-61 | an inserted record has the key, the written times, consistent derived fields, quality 720p and watchedAt = now, with no title or poster |
| WatchHistory.ProgressIdempotent | models/watch.history.models.ts:114-133 | repeating an identical progress report changes only lastPlayedAt |
| WatchHistory.Filter | models/watch.history.models.ts:94 | the result holds exactly the rows the filter admits, and is a sub-multiset of the rows |
| WatchHistory.InsertByRecency | models/watch.history.models.ts:95 | inserting into a list sorted by lastPlayedAt descending keeps it sorted and adds exactly that record |
| WatchHistory.SortByRecency | models/watch.history.models.ts:95 | the result is sorted by lastPlayedAt descending and is a permutation of the input |
| WatchHistory.Take | models/watch.history.models.ts:96 | a prefix of the input of length min(limit, n), or all of it when limit is 0, so a sub-multiset of it |
| WatchHistory.Query | models/watch.history.models.ts:94-97 | the result is sorted most recent first, admitted by the filter, at most limit long; every admitted row left out is no more recent than any row returned; when fewer than limit rows are returned, nothing admitted is left out; and no row is returned more often than it occurs in the collection |
| WatchHistory.QueryComplete | models/watch.history.models.ts:94-97 | the filtered, sorted and limited rows satisfy the membership, top-k, completeness and sub-multiset properties of Query |
| WatchHistory.NoRepeatsKept | models/watch.history.models.ts:94-97 | a sub-multiset of a sequence without repeated elements has none either, so a query over distinct rows returns distinct rows |
| WatchHistory.WatchHistoryStore.Rows | models/watch.history.models.ts:94 | the collection as a sequence: every stored record, and no two rows with the same (user, movie) key, as the unique index guarantees |
| WatchHistory.WatchDocument.IsCompleted | models/watch.history.models.ts:72-74 | on a consistent document, true exactly when the rounded progress exceeds 90 |
| WatchHistory.WatchDocument.GetProgress | models/watch.history.models.ts:76-78 | on a consistent document, the rounded percentage of the stored times |
| WatchHistory.WatchDocument.UpdateProgress | models/watch.history.models.ts:80-87 | sets currentTime, recomputes progress against the unchanged stored duration, sets completed = progress > 90 and refreshes lastPlayedAt; everything else unchanged |
| WatchHistory.WatchHistoryStore.UpdateWatchProgress | models/watch.history.models.ts:114-134 | after the upsert the store maps (user, movie) to exactly the returned record and every other key to what it had; the returned record's progress and completion are as computed above; an existing record keeps its other fields, and a new one gets the schema defaults; the store invariant holds |
| WatchHistory.WatchHistoryStore.UserHistory | models/watch.history.models.ts:90-98 | returns stored records of the user only, most recent first, at most limit; no record is excluded for being completed (any of the user's records left out is no more recent than those returned, and none is left out when fewer than limit are returned); no two results share a (user, movie) key |
| WatchHistory.WatchHistoryStore.ContinueWatching | models/watch.history.models.ts:100-112 | returns stored records of the user with completed = false and 0 < progress < 90 only, most recent first, at most limit, the most recent such records, all of them when fewer than limit are returned, and no two with the same (user, movie) key |
| Subscriptions.ParsePlan | controllers/subscription.controllers.ts:15-16 | "monthly" and "yearly" are the only accepted plan types |
| Subscriptions.Opened | controllers/subscription.controllers.ts:19-35 | price 149999 for monthly and 1619999 for yearly; endDate one month or twelve months after startDate (so after it); status inactive, payment pending, no verification id |
| Subscriptions.Paid | controllers/subscription.controllers.ts:186-188 | paymentStatus completed, status active and the verification id set; plan, price and dates unchanged |
| Subscriptions.ExpiryMoment | controllers/subscription.controllers.ts:102 | the expiry is the first midnight of the expiry month (month index 12*year + month - 1 for four-digit years and months 1..12) |
| Subscriptions.ExpiryTwoDigitYear | controllers/subscription.controllers.ts:102 | a year 0..99 names the same expiry month as the year 1900 + year |
| Subscriptions.ExpiryMonthCarry | controllers/subscription.controllers.ts:102 | for years from 100 on, month m + 12 of a year is month m of the next year |
| Subscriptions.TwoDigitYearExpired | controllers/subscription.controllers.ts:101-106 | a request that passes the format checks but has a two-digit expiry year is refused as expired at any time from the year 2000 on, whatever is stored |
| Subscriptions.Validate | controllers/subscription.controllers.ts:68-127 | each refusal happens exactly when every earlier check passed and its own check fails: fields, 16-digit card, 3-digit CVV, expiry, not found, already paid; success yields the stored, still pending subscription |
| Subscriptions.FormatChecksPrecedeLookup | controllers/subscription.controllers.ts:68-112 | the field, card, CVV and expiry refusals do not depend on what is stored |
| Subscriptions.ExpiringMonthRefused | controllers/subscription.controllers.ts:101-103 | after the first midnight of its expiry month, a card is refused as expired |
| Subscriptions.AlreadyPaidBeforeAuthorizer | controllers/subscription.controllers.ts:121-127 | once the card checks pass, a paid subscription is refused as already paid before the authorizer is consulted |
| Subscriptions.FifteenDigitCardRefused | controllers/subscription.controllers.ts:84-90 | a 15-digit card number is refused as malformed with a 400, whatever the subscription's state |
| Subscriptions.ErrorResponse | controllers/subscription.controllers.ts:76-127 | not found is a 404, an authorizer PAYMENT_ERROR a 500, every other refusal a 400; each validation refusal carries its fixed message, and an authorizer refusal is answered as AuthorizerErrorResponse gives |
| Subscriptions.ValidationResponsesDistinct | controllers/subscription.controllers.ts:76-127 | no two validation refusals share a response, so the client can tell them apart |
| Subscriptions.AuthorizerErrorResponse | controllers/subscription.controllers.ts:151-171 | PAYMENT_ERROR is 500 with "Payment processing error" and everything else 400; the three known card codes get their fixed messages; any other code is passed through as the message, and a missing or empty one becomes "Payment processing error" |
| Subscriptions.MaskCardNumber | controllers/subscription.controllers.ts:141 | "****" followed by the last four characters (all of them when shorter) |
| Subscriptions.Sanitized | controllers/subscription.controllers.ts:139-143 | the logged details show the CVV as "***" and the masked number, other fields unchanged |
| Subscriptions.MaskRevealsLastFour | controllers/subscription.controllers.ts:139-143 | for a validated 16-digit card, the logged number is eight characters: "****" and the card's last four digits |
| Subscriptions.SubscriptionStore.CreateSubscription | controllers/subscription.controllers.ts:12-35 | an unknown plan type is a 400 and stores nothing; otherwise exactly one new subscription, under a fresh id, as Opened describes |
| Subscriptions.SubscriptionStore.ProcessSubscriptionPayment | controllers/subscription.controllers.ts:58-189 | a validation failure or a refused authorization returns that error and changes nothing; an authorization marks exactly that subscription paid; a paid subscription never changes; the lifecycle invariant is kept |
| Subscriptions.SubscriptionStore.GetSubscriptionStatus | controllers/subscription.controllers.ts:223-240 | a 404 exactly when the id is unknown; otherwise the id, the stored plan type, start and end dates, price and payment status, and a status that is active exactly when paid |
| Subscriptions.MonthlyPurchase | controllers/subscription.controllers.ts:186-189 | creating a monthly plan and paying it with an approved valid card leaves it active, paid, priced 149999, ending a month later and carrying the verification id |
| Home.OrElse | controllers/home.controllers.ts:83 | JavaScript's logical or on optional strings: a when truthy, otherwise b |
| Home.ImageUrl | controllers/home.controllers.ts:75-80 | present exactly when the path is truthy, and then the base followed by the path |
| Home.TransformMedia | controllers/home.controllers.ts:72-86 | title from `title` for movies and from `name` for TV; the type tag copied through; poster and backdrop URLs with their bases or none; genre ids defaulting to []; release date falling back to the first-air date |
| Home.TransformAll | controllers/home.controllers.ts:92-110 | the same length as the input, with each entry transformed position by position |
| Home.GetHomeScreenData | controllers/home.controllers.ts:35-111 | a 400 exactly when the user id is missing, independent of the data; otherwise the first min(3, n) continue-watching entries in order, trending = transformed movies then transformed TV (length the sum), other rows transformed |
| Home.HomeShowsTopThreeResumable | controllers/home.controllers.ts:48-90 | fed from the continue-watching query with its default limit, the home screen shows at most 3 of the user's stored resumable records, most recent first, none left out more recent than one shown, all of them when fewer than 3 are shown, and no (user, movie) key twice; none of this depends on how ties in lastPlayedAt are ordered |
| Home.FirstThreeOfQuery | controllers/home.controllers.ts:90 | the first min(3, n) entries of any answer meeting the default-limit query's guarantees are the top three resumable records, whatever the tie order |

## Left out

- WatchHistory.RoundPercent: requires duration > 0. A zero duration gives Infinity or NaN in the code, which the model has no values for; a negative duration gives a finite percentage of the opposite sign, which the code stores and the model does not cover.
- WatchHistory.WatchHistoryStore.UpdateWatchProgress: requires duration > 0, so the stored Infinity, NaN or negative progress of a non-positive duration is not modelled.
- WatchHistory.WatchDocument.UpdateProgress: requires a positive stored duration, for the same reason.
- WatchHistory.RoundPercent: rounds 100t/d exactly. The code divides in doubles before multiplying by 100, so a product just below a half can round down: 23 of 40 s gives 57.49999999999999 and progress 57 in the code, 58 in the model (likewise 29 of 200 s gives 14 against 15).
- WatchHistory.Inserted: uses one `now` for both `watchedAt` and `lastPlayedAt`. The code takes them from two clock readings (the schema default `Date.now` and `new Date()` in the upsert), which may differ by a few milliseconds.
- Floating point: the code computes `(t / d) * 100` in doubles. The model uses exact rational rounding on integer seconds, so fractional seconds and double-rounding at exact .5 boundaries are not modelled.
- Mongoose persistence is not modelled: atomicity of `findOneAndUpdate`, `save()`, the `timestamps` fields createdAt/updatedAt, `select("-__v")`, and the secondary indexes. The store is an in-memory map. The upsert is assumed to apply schema defaults on insert, as Mongoose does by default.
- The enum validator on `quality` runs on save. In the model a record's quality is a `Quality` value, so it is one of the four by construction.
- `getWhatToWatchTonight` is declared in the model's interface but has no implementation in the file, so it is not modelled.
- Query limits are natural numbers; Mongo's negative limits are not modelled.
- A malformed subscription id or user id (an ObjectId cast error) and any exception caught by the handlers' `catch` blocks (500 responses) are not modelled.
- Subscriptions.SubscriptionStore.CreateSubscription: endDate is one calendar month or year later with the same offset into the month. Day-of-month overflow (31 January plus one month) is not modelled, and startDate and endDate come from one clock reading rather than two.
- Subscriptions.ExpiryMoment: every year and month gets a month index. The Date constructor instead gives an invalid date outside its range (about 271821 BC to 275760 AD, e.g. year -300000), which the code never counts as expired; the model refuses such a far-past card as expired.
- Subscriptions.Before: instants compare by month and then by wall-clock offset into the month. Where daylight saving time repeats or skips an hour, the wall clock and elapsed time disagree; that difference is not modelled.
- Request fields are typed: text fields are absent when empty and numeric fields when zero. Non-numeric expiry strings, which the code turns into an invalid date that never counts as expired, are not modelled. Neither is the string "0".
- The payment authorizer (`PaymentUtils.processPayment`) is not part of this model. Its answer is a parameter, and the amount and card details it receives are not modelled.
- `console.log`/`console.error` are not modelled; only the sanitized card record they print is.
- The catalog HTTP calls, `Promise.all`, the Cache-Control header and JSON serialisation are not modelled. The fetched lists are inputs.
- controllers/streaming.controllers.ts and the route files are not part of this model (request wiring and a wrapper around a streaming service whose source is not available).

=== FILE: home.dfy ===
/**
 * The home-screen response: the `userId` guard, `transformMedia` over the
 * catalog lists, the trending concatenation and the capped continue-watching
 * row. The catalog lists arrive as plain sequences.
 */
module Home {
  import opened Wrappers
  import WatchHistory

  const PosterBase: string := "https://image.tmdb.org/t/p/w500"
  const BackdropBase: string := "https://image.tmdb.org/t/p/original"

  /** How many continue-watching entries the home screen shows. */
  const ContinueWatchingShown: nat := 3

  datatype MediaType = Movie | Tv

  /** A catalog result as the catalog API returns it; absent fields are `None`. */
  datatype CatalogItem = CatalogItem(
    id: int,
    title: Option<string>,
    name: Option<string>,
    posterPath: Option<string>,
    backdropPath: Option<string>,
    overview: string,
    releaseDate: Option<string>,
    firstAirDate: Option<string>,
    voteAverage: real,
    genreIds: Option<seq<int>>)

  /** A catalog entry as the home screen sends it. */
  datatype Media = Media(
    id: int,
    title: Option<string>,
    posterPath: Option<string>,
    backdropPath: Option<string>,
    genreIds: seq<int>,
    overview: string,
    releaseDate: Option<string>,
    mediaType: MediaType,
    voteAverage: real)

  /** JavaScript truthiness of an optional string: present and non-empty. */
  predicate Truthy(s: Option<string>)
  {
    s.Some? && s.value != ""
  }

  /** `a || b` on optional strings. */
  function OrElse(a: Option<string>, b: Option<string>): (r: Option<string>)
    ensures Truthy(a) ==> r == a
    ensures !Truthy(a) ==> r == b
  {
    if Truthy(a) then a else b
  }

  /** The image URL for a path: the base followed by the path, or `None` when the path is falsy. */
  function ImageUrl(base: string, path: Option<string>): (url: Option<string>)
    ensures url.Some? <==> Truthy(path)
    ensures url.Some? ==> |url.value| == |base| + |path.value|
                          && url.value[..|base|] == base && url.value[|base|..] == path.value
  {
    if Truthy(path) then Some(base + path.value) else None
  }

  /** `transformMedia(item, type)`. */
  function TransformMedia(item: CatalogItem, t: MediaType): (m: Media)
    ensures m.id == item.id && m.mediaType == t
    ensures m.title == (if t == Movie then item.title else item.name)
    ensures m.posterPath == ImageUrl(PosterBase, item.posterPath)
    ensures m.backdropPath == ImageUrl(BackdropBase, item.backdropPath)
    ensures item.genreIds.None? ==> m.genreIds == []
    ensures item.genreIds.Some? ==> m.genreIds == item.genreIds.value
    ensures m.releaseDate == OrElse(item.releaseDate, item.firstAirDate)
    ensures m.overview == item.overview && m.voteAverage == item.voteAverage
  {
    Media(
      item.id,
      if t == Movie then item.title else item.name,
      ImageUrl(PosterBase, item.posterPath),
      ImageUrl(BackdropBase, item.backdropPath),
      if item.genreIds.Some? then item.genreIds.value else [],
      item.overview,
      OrElse(item.releaseDate, item.firstAirDate),
      t,
      item.voteAverage)
  }

  /** `results.map(x => transformMedia(x, t))`. */
  function TransformAll(items: seq<CatalogItem>, t: MediaType): (ms: seq<Media>)
    ensures |ms| == |items|
    ensures forall i :: 0 <= i < |items| ==> ms[i] == TransformMedia(items[i], t)
  {
    if items == [] then []
    else [TransformMedia(items[0], t)] + TransformAll(items[1..], t)
  }

  /** The catalog lists the handler fetches, already unwrapped from their responses. */
  datatype CatalogFeeds = CatalogFeeds(
    trendingMovies: seq<CatalogItem>,
    trendingTv: seq<CatalogItem>,
    forYou: seq<CatalogItem>,
    animeMovies: seq<CatalogItem>,
    dramaMovies: seq<CatalogItem>,
    popularSeries: seq<CatalogItem>)

  datatype HomeScreen = HomeScreen(
    continueWatching: seq<WatchHistory.WatchRecord>,
    trending: seq<Media>,
    forYou: seq<Media>,
    animeMovies: seq<Media>,
    dramaMovies: seq<Media>,
    popularSeries: seq<Media>)

  /**
   * `getHomeScreenData`: without a user id, a 400 whatever the data;
   * otherwise at most three continue-watching entries in query order,
   * trending movies then trending shows, and the other rows transformed.
   */
  function GetHomeScreenData(userId: string, continueWatching: seq<WatchHistory.WatchRecord>, feeds: CatalogFeeds)
    : (r: Result<HomeScreen, HttpError>)
    ensures userId == "" <==> r.Failure?
    ensures r.Failure? ==> r.error == HttpError(400, "User ID is required")
    ensures r.Success? ==>
      var h := r.value;
      && h.continueWatching == continueWatching[..Min(3, |continueWatching|)]
      && |h.trending| == |feeds.trendingMovies| + |feeds.trendingTv|
      && (forall i :: 0 <= i < |feeds.trendingMovies| ==>
            h.trending[i] == TransformMedia(feeds.trendingMovies[i], Movie))
      && (forall j :: 0 <= j < |feeds.trendingTv| ==>
            h.trending[|feeds.trendingMovies| + j] == TransformMedia(feeds.trendingTv[j], Tv))
      && h.forYou == TransformAll(feeds.forYou, Movie)
      && h.animeMovies == TransformAll(feeds.animeMovies, Movie)
      && h.dramaMovies == TransformAll(feeds.dramaMovies, Movie)
      && h.popularSeries == TransformAll(feeds.popularSeries, Tv)
  {
    if userId == "" then Failure(HttpError(400, "User ID is required"))
    else
      var shown := if |continueWatching| <= ContinueWatchingShown then continueWatching
                   else continueWatching[..ContinueWatchingShown];
      Success(HomeScreen(
        shown,
        TransformAll(feeds.trendingMovies, Movie) + TransformAll(feeds.trendingTv, Tv),
        TransformAll(feeds.forYou, Movie),
        TransformAll(feeds.animeMovies, Movie),
        TransformAll(feeds.dramaMovies, Movie),
        TransformAll(feeds.popularSeries, Tv)))
  }

  /**
   * What the continue-watching row must show: at most three of the user's
   * stored resumable records, most recent first, none left out more recent
   * than one shown, all of them when fewer than three are shown, and no
   * (user, movie) key twice. None of this depends on how records with equal
   * `lastPlayedAt` are ordered.
   */
  ghost predicate TopResumable(store: WatchHistory.WatchHistoryStore, userId: string, shown: seq<WatchHistory.WatchRecord>)
    reads store
  {
    && |shown| <= ContinueWatchingShown
    && WatchHistory.Descending(shown)
    && (forall x :: x in shown ==> store.Stored(x) && WatchHistory.Resumable(x, userId))
    && (forall x, i :: store.Stored(x) && WatchHistory.Resumable(x, userId) && x !in shown && 0 <= i < |shown| ==>
          x.lastPlayedAt <= shown[i].lastPlayedAt)
    && (|shown| < ContinueWatchingShown ==>
          forall x :: store.Stored(x) && WatchHistory.Resumable(x, userId) ==> x in shown)
    && (forall i, j :: 0 <= i < j < |shown| ==> shown[i].KeyOf() != shown[j].KeyOf())
  }

  /**
   * Fed from the store's continue-watching query with its default limit, the
   * home screen's continue-watching row is the top three resumable records.
   */
  lemma HomeShowsTopThreeResumable(store: WatchHistory.WatchHistoryStore, userId: string, feeds: CatalogFeeds)
    requires store.Valid() && userId != ""
    ensures TopResumable(store, userId,
              GetHomeScreenData(userId, store.ContinueWatching(userId, WatchHistory.DefaultLimit), feeds).value.continueWatching)
  {
    var all := store.ContinueWatching(userId, WatchHistory.DefaultLimit);
    var shown := GetHomeScreenData(userId, all, feeds).value.continueWatching;
    assert shown == all[..Min(3, |all|)];
    assert QueryAnswer(store, userId, all);
    FirstThreeOfQuery(store, userId, all, shown);
  }

  /** What the default-limit continue-watching query promises about its answer `all`. */
  ghost predicate QueryAnswer(store: WatchHistory.WatchHistoryStore, userId: string, all: seq<WatchHistory.WatchRecord>)
    reads store
  {
    && |all| <= WatchHistory.DefaultLimit
    && WatchHistory.Descending(all)
    && (forall x :: x in all ==> store.Stored(x) && WatchHistory.Resumable(x, userId))
    && (forall x, i :: store.Stored(x) && WatchHistory.Resumable(x, userId) && x !in all && 0 <= i < |all| ==>
          x.lastPlayedAt <= all[i].lastPlayedAt)
    && (|all| < WatchHistory.DefaultLimit ==>
          forall x :: store.Stored(x) && WatchHistory.Resumable(x, userId) ==> x in all)
    && (forall i, j :: 0 <= i < j < |all| ==> all[i].KeyOf() != all[j].KeyOf())
  }

  /** The first three entries of the default-limit continue-watching query are the top three. */
  lemma FirstThreeOfQuery(store: WatchHistory.WatchHistoryStore, userId: string,
                          all: seq<WatchHistory.WatchRecord>, shown: seq<WatchHistory.WatchRecord>)
    requires store.Valid()
    requires QueryAnswer(store, userId, all)
    requires shown == all[..Min(3, |all|)]
    ensures TopResumable(store, userId, shown)
  {
    FirstThreeAdmitted(store, userId, all, shown);
    FirstThreeMostRecent(store, userId, all, shown);
  }

  /** A prefix of the query is sorted, admitted by the filter and free of repeated keys. */
  lemma FirstThreeAdmitted(store: WatchHistory.WatchHistoryStore, userId: string,
                           all: seq<WatchHistory.WatchRecord>, shown: seq<WatchHistory.WatchRecord>)
    requires store.Valid()
    requires QueryAnswer(store, userId, all)
    requires shown == all[..Min(3, |all|)]
    ensures |shown| <= ContinueWatchingShown
    ensures WatchHistory.Descending(shown)
    ensures forall x :: x in shown ==> store.Stored(x) && WatchHistory.Resumable(x, userId)
    ensures forall i, j :: 0 <= i < j < |shown| ==> shown[i].KeyOf() != shown[j].KeyOf()
  {
    assert forall k :: 0 <= k < |shown| ==> shown[k] == all[k];
    assert forall x :: x in shown ==> x in all;
  }

  /** Nothing resumable left out of the prefix is more recent, and a short prefix leaves nothing out. */
  lemma FirstThreeMostRecent(store: WatchHistory.WatchHistoryStore, userId: string,
                             all: seq<WatchHistory.WatchRecord>, shown: seq<WatchHistory.WatchRecord>)
    requires store.Valid()
    requires QueryAnswer(store, userId, all)
    requires shown == all[..Min(3, |all|)]
    ensures forall x, i :: store.Stored(x) && WatchHistory.Resumable(x, userId) && x !in shown && 0 <= i < |shown| ==>
              x.lastPlayedAt <= shown[i].lastPlayedAt
    ensures |shown| < ContinueWatchingShown ==>
              forall x :: store.Stored(x) && WatchHistory.Resumable(x, userId) ==> x in shown
  {
    var n := |shown|;
    WatchHistory.PrefixIsMostRecent(all, n);
    forall x, i | store.Stored(x) && WatchHistory.Resumable(x, userId) && x !in shown && 0 <= i < n
      ensures x.lastPlayedAt <= shown[i].lastPlayedAt
    {
      assert shown[i] == all[i];
    }
    if n < ContinueWatchingShown {
      assert shown == all;
    }
  }
}

=== FILE: subscription.dfy ===
/**
 * Subscriptions: creation with the plan's price and period, the payment
 * handler's validation chain, the one-way pending -> completed transition,
 * the mapping of authorizer failures to HTTP responses, and card masking.
 */
module Subscriptions {
  import opened Wrappers

  datatype PlanType = Monthly | Yearly
  datatype Status = Inactive | Active
  datatype PaymentStatus = Pending | Completed

  /** Prices in minor currency units. */
  const MonthlyPrice: int := 149999
  const YearlyPrice: int := 1619999

  /**
   * A local-time instant: the month it falls in, counted as 12 * year +
   * (month - 1), and the wall-clock offset into that month in milliseconds,
   * (day - 1) * 86400000 plus the time of day as the local clock reads it.
   */
  datatype Moment = Moment(monthIndex: int, sinceMonthStart: nat)

  /** Chronological order of two instants (`a < b` on dates). */
  predicate Before(a: Moment, b: Moment)
  {
    a.monthIndex < b.monthIndex || (a.monthIndex == b.monthIndex && a.sinceMonthStart < b.sinceMonthStart)
  }

  datatype Subscription = Subscription(
    id: nat,
    planType: PlanType,
    price: int,
    startDate: Moment,
    endDate: Moment,
    status: Status,
    paymentStatus: PaymentStatus,
    paymentVerificationId: Option<string>)

  /** The lifecycle invariant: active exactly when paid, and a verification id exactly when paid. */
  predicate Coherent(s: Subscription)
  {
    && (s.status == Active <==> s.paymentStatus == Completed)
    && (s.paymentVerificationId.Some? <==> s.paymentStatus == Completed)
  }

  /** The plan-type check of `createSubscription`: only "monthly" and "yearly" (the empty string is missing). */
  function ParsePlan(s: string): (r: Option<PlanType>)
    ensures r == Some(Monthly) <==> s == "monthly"
    ensures r == Some(Yearly) <==> s == "yearly"
    ensures r.None? <==> s != "monthly" && s != "yearly"
  {
    if s == "monthly" then Some(Monthly)
    else if s == "yearly" then Some(Yearly)
    else None
  }

  function PlanMonths(plan: PlanType): nat
  {
    match plan
    case Monthly => 1
    case Yearly => 12
  }

  function Price(plan: PlanType): int
  {
    match plan
    case Monthly => MonthlyPrice
    case Yearly => YearlyPrice
  }

  /** The subscription `createSubscription` stores: priced by plan, unpaid, running one month or one year. */
  function Opened(id: nat, plan: PlanType, now: Moment): (s: Subscription)
    ensures s.id == id && s.planType == plan && s.startDate == now
    ensures s.price == (if plan == Monthly then 149999 else 1619999)
    ensures s.endDate.monthIndex == now.monthIndex + (if plan == Monthly then 1 else 12)
    ensures s.endDate.sinceMonthStart == now.sinceMonthStart
    ensures s.status == Inactive && s.paymentStatus == Pending && s.paymentVerificationId.None?
    ensures Coherent(s) && Before(s.startDate, s.endDate)
  {
    Subscription(id, plan, Price(plan), now,
                 Moment(now.monthIndex + PlanMonths(plan), now.sinceMonthStart),
                 Inactive, Pending, None)
  }

  /** The state after a successful authorization. */
  function Paid(s: Subscription, verificationId: string): (s': Subscription)
    ensures Coherent(s') && s'.paymentStatus == Completed && s'.status == Active
    ensures s'.paymentVerificationId == Some(verificationId)
    ensures s'.id == s.id && s'.planType == s.planType && s'.price == s.price
    ensures s'.startDate == s.startDate && s'.endDate == s.endDate
  {
    s.(paymentStatus := Completed, status := Active, paymentVerificationId := Some(verificationId))
  }

  /**
   * The payment request body. Text fields are absent when empty, numeric
   * fields when zero (both are falsy in the handler's presence check), and
   * the subscription id when `None`.
   */
  datatype PaymentRequest = PaymentRequest(
    cardNumber: string,
    cardholderName: string,
    expiryMonth: int,
    expiryYear: int,
    cvv: string,
    subscriptionId: Option<nat>)

  /** What the authorizer answered: a verification id, or an error code that may be missing. */
  datatype AuthOutcome = Authorized(verificationId: string) | Refused(code: Option<string>)

  /** Why a payment request was turned down, in the order the handler checks. */
  datatype PaymentError =
    | MissingFields
    | InvalidCardNumber
    | InvalidCvv
    | CardExpired
    | SubscriptionNotFound
    | AlreadyPaid
    | AuthorizationFailed(code: Option<string>)

  predicate AllPresent(req: PaymentRequest)
  {
    && req.cardNumber != ""
    && req.cardholderName != ""
    && req.expiryMonth != 0
    && req.expiryYear != 0
    && req.cvv != ""
    && req.subscriptionId.Some?
  }

  /** The regular expression `^\d{n}$`: exactly n ASCII digits. */
  predicate ExactDigits(s: string, n: nat)
  {
    |s| == n && forall i :: 0 <= i < |s| ==> '0' <= s[i] <= '9'
  }

  /** The Date constructor reads years 0..99 as 1900..1999. */
  function FullYear(y: int): int
  {
    if 0 <= y <= 99 then 1900 + y else y
  }

  /** `new Date(expiryYear, expiryMonth - 1)`: midnight of the first day of that month, months overflowing into years. */
  function ExpiryMoment(month: int, year: int): (m: Moment)
    ensures m.sinceMonthStart == 0
    ensures 1 <= month <= 12 && year >= 100 ==> m.monthIndex == 12 * year + month - 1
  {
    Moment(12 * FullYear(year) + month - 1, 0)
  }

  /** A year written with one or two digits names the same month as the 1900s year. */
  lemma ExpiryTwoDigitYear(month: int, year: int)
    requires 0 <= year <= 99
    ensures ExpiryMoment(month, year) == ExpiryMoment(month, 1900 + year)
  {
  }

  /** Twelve months past the end of a year carry into the next year. */
  lemma ExpiryMonthCarry(month: int, year: int)
    requires year >= 100
    ensures ExpiryMoment(month + 12, year) == ExpiryMoment(month, year + 1)
  {
  }

  predicate Expired(req: PaymentRequest, today: Moment)
  {
    Before(ExpiryMoment(req.expiryMonth, req.expiryYear), today)
  }

  /**
   * The checks of `processSubscriptionPayment` before the authorizer is
   * called, each short-circuiting: fields, card number, CVV, expiry,
   * existence, already paid. On success, the subscription to charge.
   */
  function Validate(req: PaymentRequest, today: Moment, subs: map<nat, Subscription>): (r: Result<Subscription, PaymentError>)
    ensures r == Failure(MissingFields) <==> !AllPresent(req)
    ensures r == Failure(InvalidCardNumber) <==> AllPresent(req) && !ExactDigits(req.cardNumber, 16)
    ensures r == Failure(InvalidCvv) <==>
              AllPresent(req) && ExactDigits(req.cardNumber, 16) && !ExactDigits(req.cvv, 3)
    ensures r == Failure(CardExpired) <==>
              AllPresent(req) && ExactDigits(req.cardNumber, 16) && ExactDigits(req.cvv, 3)
              && Expired(req, today)
    ensures r == Failure(SubscriptionNotFound) <==>
              AllPresent(req) && ExactDigits(req.cardNumber, 16) && ExactDigits(req.cvv, 3)
              && !Expired(req, today) && req.subscriptionId.value !in subs
    ensures r == Failure(AlreadyPaid) <==>
              AllPresent(req) && ExactDigits(req.cardNumber, 16) && ExactDigits(req.cvv, 3)
              && !Expired(req, today) && req.subscriptionId.value in subs
              && subs[req.subscriptionId.value].paymentStatus == Completed
    ensures r.Success? ==>
              req.subscriptionId.Some? && req.subscriptionId.value in subs
              && r.value == subs[req.subscriptionId.value] && r.value.paymentStatus == Pending
    ensures r.Failure? ==> !r.error.AuthorizationFailed?
  {
    if !AllPresent(req) then Failure(MissingFields)
    else if !ExactDigits(req.cardNumber, 16) then Failure(InvalidCardNumber)
    else if !ExactDigits(req.cvv, 3) then Failure(InvalidCvv)
    else if Expired(req, today) then Failure(CardExpired)
    else if req.subscriptionId.value !in subs then Failure(SubscriptionNotFound)
    else
      var s := subs[req.subscriptionId.value];
      if s.paymentStatus.Completed? then Failure(AlreadyPaid) else Success(s)
  }

  /** The first four checks look only at the request: they fail alike whatever is stored. */
  lemma FormatChecksPrecedeLookup(req: PaymentRequest, today: Moment, subs1: map<nat, Subscription>, subs2: map<nat, Subscription>)
    requires Validate(req, today, subs1).Failure?
    requires Validate(req, today, subs1).error in {MissingFields, InvalidCardNumber, InvalidCvv, CardExpired}
    ensures Validate(req, today, subs2) == Validate(req, today, subs1)
  {
  }

  /** A card that expires this month is already refused after that month's first midnight. */
  lemma ExpiringMonthRefused(req: PaymentRequest, today: Moment)
    requires 1 <= req.expiryMonth <= 12 && req.expiryYear >= 100
    requires today.monthIndex == 12 * req.expiryYear + req.expiryMonth - 1 && today.sinceMonthStart > 0
    ensures Expired(req, today)
  {
  }

  /**
   * A card whose expiry year is written with two digits expires in the
   * 1900s, so from the year 2000 on it is refused as expired whatever the
   * intended century.
   */
  lemma TwoDigitYearExpired(req: PaymentRequest, today: Moment, subs: map<nat, Subscription>)
    requires AllPresent(req) && ExactDigits(req.cardNumber, 16) && ExactDigits(req.cvv, 3)
    requires 1 <= req.expiryMonth <= 12 && 1 <= req.expiryYear <= 99
    requires today.monthIndex >= 12 * 2000
    ensures Validate(req, today, subs) == Failure(CardExpired)
  {
  }

  /** The response the handler sends for each refusal. */
  function ErrorResponse(e: PaymentError): (h: HttpError)
    ensures h.status == 500 <==> e == AuthorizationFailed(Some("PAYMENT_ERROR"))
    ensures h.status == 404 <==> e == SubscriptionNotFound
    ensures h.status == 400 <==> e != AuthorizationFailed(Some("PAYMENT_ERROR")) && e != SubscriptionNotFound
    ensures e == MissingFields ==> h == HttpError(400, "All payment fields are required")
    ensures e == InvalidCardNumber ==> h == HttpError(400, "Invalid card number format")
    ensures e == InvalidCvv ==> h == HttpError(400, "Invalid CVV format")
    ensures e == CardExpired ==> h == HttpError(400, "Card has expired")
    ensures e == SubscriptionNotFound ==> h == HttpError(404, "Subscription not found")
    ensures e == AlreadyPaid ==> h == HttpError(400, "Subscription already paid")
    ensures e.AuthorizationFailed? ==> h == AuthorizerErrorResponse(e.code)
  {
    match e
    case MissingFields => HttpError(400, "All payment fields are required")
    case InvalidCardNumber => HttpError(400, "Invalid card number format")
    case InvalidCvv => HttpError(400, "Invalid CVV format")
    case CardExpired => HttpError(400, "Card has expired")
    case SubscriptionNotFound => HttpError(404, "Subscription not found")
    case AlreadyPaid => HttpError(400, "Subscription already paid")
    case AuthorizationFailed(code) => AuthorizerErrorResponse(code)
  }

  /**
   * The switch on the authorizer's error code: PAYMENT_ERROR is a server
   * fault; the three known card errors get fixed messages; any other code is
   * passed through as the message, a missing or empty one replaced by
   * "Payment processing error".
   */
  function AuthorizerErrorResponse(code: Option<string>): (h: HttpError)
    ensures h.status == (if code == Some("PAYMENT_ERROR") then 500 else 400)
    ensures code == Some("CARD_DECLINED") ==> h.message == "Card was declined"
    ensures code == Some("INSUFFICIENT_FUNDS") ==> h.message == "Insufficient funds"
    ensures code == Some("INVALID_CARD") ==> h.message == "Invalid card details"
    ensures code == Some("PAYMENT_ERROR") ==> h.message == "Payment processing error"
    ensures code.None? || code == Some("") ==> h.message == "Payment processing error"
    ensures (code.Some? && code.value !in {"CARD_DECLINED", "INSUFFICIENT_FUNDS", "INVALID_CARD", "PAYMENT_ERROR", ""})
              ==> h.message == code.value
  {
    match code
    case Some("CARD_DECLINED") => HttpError(400, "Card was declined")
    case Some("INSUFFICIENT_FUNDS") => HttpError(400, "Insufficient funds")
    case Some("INVALID_CARD") => HttpError(400, "Invalid card details")
    case Some("PAYMENT_ERROR") => HttpError(500, "Payment processing error")
    case Some(other) => HttpError(400, if other != "" then other else "Payment processing error")
    case None => HttpError(400, "Payment processing error")
  }

  /** The client can tell the validation refusals apart: no two of them share a response. */
  lemma ValidationResponsesDistinct(e1: PaymentError, e2: PaymentError)
    requires !e1.AuthorizationFailed? && !e2.AuthorizationFailed? && e1 != e2
    ensures ErrorResponse(e1) != ErrorResponse(e2)
  {
  }

  /** The card number as the handler logs it: four asterisks and its last four characters. */
  function MaskCardNumber(card: string): (m: string)
    ensures |m| == 4 + Min(4, |card|)
    ensures m[..4] == "****"
    ensures m[4..] == card[|card| - Min(4, |card|)..]
  {
    "****" + (if |card| >= 4 then card[|card| - 4..] else card)
  }

  /** The card details the authorizer receives. */
  datatype CardDetails = CardDetails(
    cardNumber: string,
    cardholderName: string,
    expiryMonth: int,
    expiryYear: int,
    cvv: string)

  /** The sanitized copy of the card details that is logged: masked number, CVV as "***". */
  function Sanitized(c: CardDetails): (s: CardDetails)
    ensures s.cvv == "***"
    ensures s.cardNumber == MaskCardNumber(c.cardNumber)
    ensures s.cardholderName == c.cardholderName
    ensures s.expiryMonth == c.expiryMonth && s.expiryYear == c.expiryYear
  {
    c.(cardNumber := MaskCardNumber(c.cardNumber), cvv := "***")
  }

  /** For a card that passed validation, only its last four digits survive masking. */
  lemma MaskRevealsLastFour(c: CardDetails)
    requires ExactDigits(c.cardNumber, 16)
    ensures |Sanitized(c).cardNumber| == 8
    ensures Sanitized(c).cardNumber == "****" + c.cardNumber[12..]
  {
    var m := Sanitized(c).cardNumber;
    assert m == m[..4] + m[4..];
  }

  /** What `getSubscriptionStatus` returns. */
  datatype StatusView = StatusView(
    id: nat,
    status: Status,
    planType: PlanType,
    startDate: Moment,
    endDate: Moment,
    price: int,
    paymentStatus: PaymentStatus)

  /** The subscription collection. Ids are handed out from a counter and never reused. */
  class SubscriptionStore {
    var subscriptions: map<nat, Subscription>
    var nextId: nat

    ghost predicate Valid()
      reads this
    {
      forall id :: id in subscriptions ==>
        id < nextId && subscriptions[id].id == id && Coherent(subscriptions[id])
    }

    constructor ()
      ensures Valid() && subscriptions == map[]
    {
      subscriptions := map[];
      nextId := 0;
    }

    /** `createSubscription`: an unknown plan type is a 400 and stores nothing. */
    method CreateSubscription(planType: string, now: Moment) returns (r: Result<Subscription, HttpError>)
      requires Valid()
      modifies this
      ensures Valid()
      ensures ParsePlan(planType).None? ==>
                r == Failure(HttpError(400, "Invalid subscription plan type"))
                && subscriptions == old(subscriptions) && nextId == old(nextId)
      ensures ParsePlan(planType).Some? ==>
                && old(nextId) !in old(subscriptions)
                && r == Success(Opened(old(nextId), ParsePlan(planType).value, now))
                && subscriptions == old(subscriptions)[old(nextId) := r.value]
                && nextId == old(nextId) + 1
    {
      var plan := ParsePlan(planType);
      if plan.None? {
        return Failure(HttpError(400, "Invalid subscription plan type"));
      }
      var s := Opened(nextId, plan.value, now);
      subscriptions := subscriptions[nextId := s];
      nextId := nextId + 1;
      r := Success(s);
    }

    /**
     * `processSubscriptionPayment`, with the authorizer's answer given. A
     * refused validation or a refused authorization changes nothing; only an
     * authorized payment marks the subscription paid and active.
     */
    method ProcessSubscriptionPayment(req: PaymentRequest, today: Moment, authorizer: AuthOutcome)
      returns (r: Result<Subscription, PaymentError>)
      requires Valid()
      modifies this
      ensures Valid() && nextId == old(nextId)
      ensures Validate(req, today, old(subscriptions)).Failure? ==>
                r == Failure(Validate(req, today, old(subscriptions)).error)
                && subscriptions == old(subscriptions)
      ensures Validate(req, today, old(subscriptions)).Success? && authorizer.Refused? ==>
                r == Failure(AuthorizationFailed(authorizer.code))
                && subscriptions == old(subscriptions)
      ensures Validate(req, today, old(subscriptions)).Success? && authorizer.Authorized? ==>
                var s := Validate(req, today, old(subscriptions)).value;
                r == Success(Paid(s, authorizer.verificationId))
                && subscriptions == old(subscriptions)[s.id := r.value]
      ensures forall id :: id in old(subscriptions) && old(subscriptions)[id].paymentStatus == Completed ==>
                id in subscriptions && subscriptions[id] == old(subscriptions)[id]
    {
      var v := Validate(req, today, subscriptions);
      if v.Failure? {
        return Failure(v.error);
      }
      var s := v.value;
      match authorizer
      case Refused(code) =>
        r := Failure(AuthorizationFailed(code));
      case Authorized(verificationId) =>
        var s' := Paid(s, verificationId);
        subscriptions := subscriptions[s.id := s'];
        r := Success(s');
    }

    /** `getSubscriptionStatus`: the stored subscription's public fields, or a 404. */
    function GetSubscriptionStatus(id: nat): (r: Result<StatusView, HttpError>)
      reads this
      requires Valid()
      ensures r.Failure? <==> id !in subscriptions
      ensures r.Failure? ==> r.error == HttpError(404, "Subscription not found")
      ensures r.Success? ==> r.value.id == id && r.value.price == subscriptions[id].price
                             && r.value.paymentStatus == subscriptions[id].paymentStatus
                             && r.value.planType == subscriptions[id].planType
                             && r.value.startDate == subscriptions[id].startDate
                             && r.value.endDate == subscriptions[id].endDate
                             && (r.value.status == Active <==> r.value.paymentStatus == Completed)
    {
      if id !in subscriptions then Failure(HttpError(404, "Subscription not found"))
      else
        var s := subscriptions[id];
        Success(StatusView(s.id, s.status, s.planType, s.startDate, s.endDate, s.price, s.paymentStatus))
    }
  }

  /** A paid subscription is refused as already paid once the card checks pass, and the authorizer is never reached. */
  lemma AlreadyPaidBeforeAuthorizer(req: PaymentRequest, today: Moment, subs: map<nat, Subscription>)
    requires AllPresent(req) && ExactDigits(req.cardNumber, 16) && ExactDigits(req.cvv, 3)
    requires !Expired(req, today)
    requires req.subscriptionId.value in subs && subs[req.subscriptionId.value].paymentStatus == Completed
    ensures Validate(req, today, subs) == Failure(AlreadyPaid)
  {
  }

  /** The card-number check comes first: a 15-digit card is refused as malformed even for a paid subscription. */
  lemma FifteenDigitCardRefused(req: PaymentRequest, today: Moment, subs: map<nat, Subscription>)
    requires AllPresent(req) && |req.cardNumber| == 15
    ensures Validate(req, today, subs) == Failure(InvalidCardNumber)
    ensures ErrorResponse(Validate(req, today, subs).error) == HttpError(400, "Invalid card number format")
  {
  }

  /** Create a monthly plan, pay it with an approved card: it is active, paid and carries the verification id. */
  method MonthlyPurchase(store: SubscriptionStore, now: Moment, cardholder: string, verificationId: string)
    returns (s: Subscription)
    requires store.Valid() && cardholder != "" && now.monthIndex < 12 * 9999 + 11
    modifies store
    ensures s.status == Active && s.paymentStatus == Completed
    ensures s.paymentVerificationId == Some(verificationId)
    ensures s.price == 149999 && s.endDate.monthIndex == now.monthIndex + 1
  {
    var created := store.CreateSubscription("monthly", now);
    assert created.Success?;
    var req := PaymentRequest("4111111111111111", cardholder, 12, 9999, "123", Some(created.value.id));
    assert ExactDigits(req.cardNumber, 16) && ExactDigits(req.cvv, 3);
    var paid := store.ProcessSubscriptionPayment(req, now, Authorized(verificationId));
    assert paid.Success?;
    s := paid.value;
  }
}

=== FILE: watch_history.dfy ===
/**
 * The watch-progress store: one record per (user, movie), an upsert that
 * recomputes the derived progress fields, the per-document progress update,
 * and the two read queries (history and continue-watching).
 */
module WatchHistory {
  import opened Wrappers

  /** The user's object id, kept opaque. */
  type UserId = string

  /** The streaming qualities the schema admits. */
  datatype Quality = Q360p | Q480p | Q720p | Q1080p

  /** Schema default for `quality`. */
  const DefaultQuality: Quality := Q720p

  /** Default `limit` of both read queries. */
  const DefaultLimit: nat := 10

  /** A record is completed when its progress is strictly above this percentage. */
  const CompletionThreshold: int := 90

  /** Continue-watching admits progress strictly below this percentage. */
  const ResumeCeiling: int := 90

  function QualityName(q: Quality): string
  {
    match q
    case Q360p => "360p"
    case Q480p => "480p"
    case Q720p => "720p"
    case Q1080p => "1080p"
  }

  /** The schema's enum validator for `quality`: only the four names are accepted. */
  function ParseQuality(s: string): (r: Option<Quality>)
    ensures r.Some? ==> QualityName(r.value) == s
    ensures r.None? ==> forall q :: QualityName(q) != s
  {
    if s == "360p" then Some(Q360p)
    else if s == "480p" then Some(Q480p)
    else if s == "720p" then Some(Q720p)
    else if s == "1080p" then Some(Q1080p)
    else None
  }

  lemma QualityRoundTrip(q: Quality)
    ensures ParseQuality(QualityName(q)) == Some(q)
  {
  }

  /** The unique index of the collection. */
  datatype Key = Key(userId: UserId, movieId: int)

  /**
   * One stored watch-history document. Times are integer seconds, instants
   * integer time stamps. `title` and `posterPath` are absent on a record the
   * upsert inserted (the upsert does not supply them).
   */
  datatype WatchRecord = WatchRecord(
    userId: UserId,
    movieId: int,
    title: Option<string>,
    posterPath: Option<string>,
    currentTime: int,
    duration: int,
    completed: bool,
    watchedAt: int,
    lastPlayedAt: int,
    progress: int,
    quality: Quality)
  {
    function KeyOf(): Key
    {
      Key(userId, movieId)
    }
  }

  /**
   * `Math.round(currentTime / duration * 100)` on integers: the nearest
   * integer to 100*t/d, halves rounded up. No clamping to [0, 100].
   */
  function RoundPercent(t: int, d: int): (p: int)
    requires d > 0
    ensures 2 * d * p - d <= 200 * t < 2 * d * p + d
  {
    var n := 200 * t + d;
    var q := n / (2 * d);
    assert n == 2 * d * q + n % (2 * d);
    q
  }

  /** The rounding bound pins the percentage down: no other integer meets it. */
  lemma RoundPercentUnique(t: int, d: int, p: int)
    requires d > 0
    requires 2 * d * p - d <= 200 * t < 2 * d * p + d
    ensures p == RoundPercent(t, d)
  {
    var q := RoundPercent(t, d);
    if p > q {
      assert 2 * d * p - 2 * d * q == 2 * d * (p - q);
      MulMonotone(2 * d, 1, p - q);
      assert false;
    } else if p < q {
      assert 2 * d * q - 2 * d * p == 2 * d * (q - p);
      MulMonotone(2 * d, 1, q - p);
      assert false;
    }
  }

  lemma MulMonotone(c: int, a: int, b: int)
    requires c > 0 && a <= b
    ensures c * a <= c * b
  {
  }

  /** Playing past the end is not clamped: progress reaches 100 or more. */
  lemma ProgressNotClamped(t: int, d: int)
    requires d > 0 && t >= d
    ensures RoundPercent(t, d) >= 100
  {
    var p := RoundPercent(t, d);
    if p < 100 {
      MulMonotone(2 * d, p, 99);
      MulMonotone(200, d, t);
      assert false;
    }
  }

  /** The boundary: 810 of 900 seconds is 90% and not completed; 820 is 91% and completed. */
  lemma CompletionBoundary()
    ensures RoundPercent(810, 900) == 90 && !(RoundPercent(810, 900) > CompletionThreshold)
    ensures RoundPercent(820, 900) == 91 && RoundPercent(820, 900) > CompletionThreshold
  {
    RoundPercentUnique(810, 900, 90);
    RoundPercentUnique(820, 900, 91);
  }

  /** The derived fields agree with the raw ones: they never drift. */
  predicate Consistent(r: WatchRecord)
  {
    && r.duration > 0
    && r.progress == RoundPercent(r.currentTime, r.duration)
    && r.completed == (r.progress > CompletionThreshold)
  }

  /** The continue-watching filter: the user's, not completed, 0 < progress < 90. */
  predicate Resumable(r: WatchRecord, userId: UserId)
  {
    r.userId == userId && !r.completed && 0 < r.progress < ResumeCeiling
  }

  /** A consistent record at exactly 90% is neither completed nor offered for resuming. */
  lemma NinetyIsNeither(r: WatchRecord, userId: UserId)
    requires Consistent(r) && r.progress == 90
    ensures !r.completed && !Resumable(r, userId)
  {
  }

  /**
   * The fields the upsert writes on an existing record. Everything else
   * (key, title, poster, quality, watchedAt) is carried over.
   */
  function WithProgress(r: WatchRecord, t: int, d: int, now: int): (r': WatchRecord)
    requires d > 0
    ensures Consistent(r')
    ensures r'.currentTime == t && r'.duration == d && r'.lastPlayedAt == now
    ensures r'.KeyOf() == r.KeyOf() && r'.title == r.title && r'.posterPath == r.posterPath
    ensures r'.quality == r.quality && r'.watchedAt == r.watchedAt
  {
    var p := RoundPercent(t, d);
    r.(currentTime := t, duration := d, progress := p,
       completed := p > CompletionThreshold, lastPlayedAt := now)
  }

  /** The record the upsert inserts: the key, the written fields, and the schema defaults. */
  function Inserted(k: Key, t: int, d: int, now: int): (r: WatchRecord)
    requires d > 0
    ensures Consistent(r) && r.KeyOf() == k
    ensures r.currentTime == t && r.duration == d && r.lastPlayedAt == now
    ensures r.quality == DefaultQuality && r.watchedAt == now
    ensures r.title.None? && r.posterPath.None?
  {
    var p := RoundPercent(t, d);
    WatchRecord(k.userId, k.movieId, None, None, t, d, p > CompletionThreshold, now, now, p, DefaultQuality)
  }

  /** Repeating the same progress report changes nothing but lastPlayedAt. */
  lemma ProgressIdempotent(r: WatchRecord, t: int, d: int, now1: int, now2: int)
    requires d > 0
    ensures WithProgress(WithProgress(r, t, d, now1), t, d, now2) == WithProgress(r, t, d, now2)
    ensures WithProgress(Inserted(r.KeyOf(), t, d, now1), t, d, now2)
         == Inserted(r.KeyOf(), t, d, now1).(lastPlayedAt := now2)
  {
  }

  // ---------------------------------------------------------------------
  // Queries: filter, sort by lastPlayedAt descending, limit.
  // ---------------------------------------------------------------------

  predicate Descending(s: seq<WatchRecord>)
  {
    forall i, j :: 0 <= i < j < |s| ==> s[i].lastPlayedAt >= s[j].lastPlayedAt
  }

  /** The records of `s` that `keep` admits, in order. */
  function Filter(s: seq<WatchRecord>, keep: WatchRecord -> bool): (r: seq<WatchRecord>)
    ensures forall x :: x in r <==> x in s && keep(x)
    ensures multiset(r) <= multiset(s)
  {
    if s == [] then []
    else
      var rest := Filter(s[1..], keep);
      assert s == [s[0]] + s[1..];
      if keep(s[0]) then [s[0]] + rest else rest
  }

  /** Places `x` before the first record no more recent than it. */
  function InsertByRecency(x: WatchRecord, s: seq<WatchRecord>): (r: seq<WatchRecord>)
    requires Descending(s)
    ensures Descending(r)
    ensures multiset(r) == multiset(s) + multiset{x}
  {
    if s == [] then [x]
    else if x.lastPlayedAt >= s[0].lastPlayedAt then
      DescendingBoundedByHead(s);
      HeadDominates(x, s);
      [x] + s
    else
      assert s == [s[0]] + s[1..];
      var rest := InsertByRecency(x, s[1..]);
      RestBoundedByHead(x, s, rest);
      HeadDominates(s[0], rest);
      [s[0]] + rest
  }

  lemma DescendingBoundedByHead(s: seq<WatchRecord>)
    requires |s| > 0 && Descending(s)
    ensures forall y :: y in s ==> y.lastPlayedAt <= s[0].lastPlayedAt
  {
  }

  lemma RestBoundedByHead(x: WatchRecord, s: seq<WatchRecord>, rest: seq<WatchRecord>)
    requires |s| > 0 && Descending(s) && x.lastPlayedAt < s[0].lastPlayedAt
    requires multiset(rest) == multiset(s[1..]) + multiset{x}
    ensures forall y :: y in rest ==> y.lastPlayedAt <= s[0].lastPlayedAt
  {
    DescendingBoundedByHead(s);
    forall y | y in rest ensures y.lastPlayedAt <= s[0].lastPlayedAt {
      assert y in multiset(rest);
      if y != x {
        assert y in multiset(s[1..]);
        assert y in s;
      }
    }
  }

  lemma HeadDominates(h: WatchRecord, rest: seq<WatchRecord>)
    requires Descending(rest)
    requires forall y :: y in rest ==> y.lastPlayedAt <= h.lastPlayedAt
    ensures Descending([h] + rest)
  {
  }

  /** A stable sort, most recently played first. */
  function SortByRecency(s: seq<WatchRecord>): (r: seq<WatchRecord>)
    ensures Descending(r)
    ensures multiset(r) == multiset(s)
  {
    if s == [] then []
    else
      assert s == [s[0]] + s[1..];
      InsertByRecency(s[0], SortByRecency(s[1..]))
  }

  /** Mongo's `.limit(n)`: the first n results; a limit of 0 means no limit. */
  function Take(s: seq<WatchRecord>, limit: nat): (r: seq<WatchRecord>)
    ensures limit == 0 ==> r == s
    ensures limit > 0 ==> |r| == Min(limit, |s|)
    ensures r == s[..|r|]
    ensures multiset(r) <= multiset(s)
  {
    if limit == 0 || |s| <= limit then s
    else
      assert s == s[..limit] + s[limit..];
      s[..limit]
  }

  /** `find(filter).sort({ lastPlayedAt: -1 }).limit(limit)` over the rows of a collection. */
  function Query(rows: seq<WatchRecord>, keep: WatchRecord -> bool, limit: nat): (r: seq<WatchRecord>)
    ensures Descending(r)
    ensures forall x :: x in r ==> x in rows && keep(x)
    ensures limit > 0 ==> |r| <= limit
    ensures forall x, i :: x in rows && keep(x) && x !in r && 0 <= i < |r| ==>
              x.lastPlayedAt <= r[i].lastPlayedAt
    ensures limit == 0 || |r| < limit ==> forall x :: x in rows && keep(x) ==> x in r
    ensures multiset(r) <= multiset(rows)
  {
    var r := Take(SortByRecency(Filter(rows, keep)), limit);
    QueryComplete(rows, keep, limit);
    r
  }

  /** What the sorted, limited selection keeps and what it leaves out. */
  lemma QueryComplete(rows: seq<WatchRecord>, keep: WatchRecord -> bool, limit: nat)
    ensures var r := Take(SortByRecency(Filter(rows, keep)), limit);
      && (forall x :: x in r ==> x in rows && keep(x))
      && (forall x, i :: x in rows && keep(x) && x !in r && 0 <= i < |r| ==>
            x.lastPlayedAt <= r[i].lastPlayedAt)
      && (limit == 0 || |r| < limit ==> forall x :: x in rows && keep(x) ==> x in r)
      && multiset(r) <= multiset(rows)
  {
    var matching := Filter(rows, keep);
    var sorted := SortByRecency(matching);
    var r := Take(sorted, limit);
    SameElements(sorted, matching);
    PrefixIsMostRecent(sorted, |r|);
    assert r == sorted[..|r|];
  }

  /** A sequence without repeated elements holds each value at most once. */
  lemma {:induction false} AtMostOnce(s: seq<WatchRecord>, x: WatchRecord)
    requires forall i, j :: 0 <= i < j < |s| ==> s[i] != s[j]
    ensures multiset(s)[x] <= 1
  {
    if s != [] {
      assert s == [s[0]] + s[1..];
      AtMostOnce(s[1..], x);
      if s[0] == x {
        assert x !in s[1..];
      }
    }
  }

  /** Two positions holding the same value count twice in the multiset. */
  lemma CountsBoth(s: seq<WatchRecord>, i: nat, j: nat)
    requires i < j < |s|
    ensures multiset(s)[s[i]] >= 1 + (if s[j] == s[i] then 1 else 0)
  {
    assert s == s[..i] + [s[i]] + s[i+1..j] + [s[j]] + s[j+1..];
  }

  /** Any part of a sequence without repeated elements has none either. */
  lemma NoRepeatsKept(rows: seq<WatchRecord>, r: seq<WatchRecord>)
    requires forall i, j :: 0 <= i < j < |rows| ==> rows[i] != rows[j]
    requires multiset(r) <= multiset(rows)
    ensures forall i, j :: 0 <= i < j < |r| ==> r[i] != r[j]
  {
    forall i, j | 0 <= i < j < |r| ensures r[i] != r[j] {
      CountsBoth(r, i, j);
      AtMostOnce(rows, r[i]);
    }
  }

  lemma SameElements(a: seq<WatchRecord>, b: seq<WatchRecord>)
    requires multiset(a) == multiset(b)
    ensures forall x :: x in a <==> x in b
  {
    forall x ensures x in a <==> x in b {
      assert x in a <==> x in multiset(a);
      assert x in b <==> x in multiset(b);
    }
  }

  /** In a list sorted most recent first, nothing after a prefix is more recent than anything in it. */
  lemma PrefixIsMostRecent(s: seq<WatchRecord>, n: nat)
    requires Descending(s) && n <= |s|
    ensures forall x, i :: x in s && x !in s[..n] && 0 <= i < n ==> x.lastPlayedAt <= s[i].lastPlayedAt
  {
  }

  /** Rows listed in the order of `order`. */
  function RowsOf(order: seq<Key>, records: map<Key, WatchRecord>): (rows: seq<WatchRecord>)
    requires forall i :: 0 <= i < |order| ==> order[i] in records
    ensures |rows| == |order|
    ensures forall i :: 0 <= i < |order| ==> rows[i] == records[order[i]]
  {
    seq(|order|, i requires 0 <= i < |order| => records[order[i]])
  }

  /**
   * A Mongoose document loaded from the collection, whose instance methods
   * read and update its own fields.
   */
  class WatchDocument {
    var userId: UserId
    var movieId: int
    var title: Option<string>
    var posterPath: Option<string>
    var currentTime: int
    var duration: int
    var completed: bool
    var watchedAt: int
    var lastPlayedAt: int
    var progress: int
    var quality: Quality

    function Snapshot(): WatchRecord
      reads this
    {
      WatchRecord(userId, movieId, title, posterPath, currentTime, duration,
                  completed, watchedAt, lastPlayedAt, progress, quality)
    }

    constructor Load(r: WatchRecord)
      ensures Snapshot() == r
    {
      userId, movieId, title, posterPath := r.userId, r.movieId, r.title, r.posterPath;
      currentTime, duration, completed := r.currentTime, r.duration, r.completed;
      watchedAt, lastPlayedAt, progress, quality := r.watchedAt, r.lastPlayedAt, r.progress, r.quality;
    }

    /** `isCompleted()`: on a consistent document, whether progress is above 90%. */
    function IsCompleted(): (c: bool)
      reads this
      ensures Consistent(Snapshot()) ==> (c <==> RoundPercent(currentTime, duration) > CompletionThreshold)
    {
      completed
    }

    /** `getProgress()`: on a consistent document, the rounded percentage of the stored times. */
    function GetProgress(): (p: int)
      reads this
      ensures Consistent(Snapshot()) ==> p == RoundPercent(currentTime, duration)
    {
      progress
    }

    /**
     * `updateProgress(currentTime)`: recompute progress against the stored
     * duration, which stays; refresh lastPlayedAt.
     */
    method UpdateProgress(t: int, now: int)
      requires duration > 0
      modifies this
      ensures Snapshot() == WithProgress(old(Snapshot()), t, old(duration), now)
      ensures Consistent(Snapshot()) && duration == old(duration)
    {
      currentTime := t;
      progress := RoundPercent(t, duration);
      completed := progress > CompletionThreshold;
      lastPlayedAt := now;
    }
  }

  /** The collection: at most one record per key, with the collection's natural order. */
  class WatchHistoryStore {
    var records: map<Key, WatchRecord>
    /** Keys in insertion order, the order in which the collection returns ties. */
    var order: seq<Key>

    ghost predicate Valid()
      reads this
    {
      && (forall k :: k in records ==> records[k].KeyOf() == k && Consistent(records[k]))
      && (forall i :: 0 <= i < |order| ==> order[i] in records)
      && (forall k :: k in records ==> k in order)
      && (forall i, j :: 0 <= i < j < |order| ==> order[i] != order[j])
    }

    /** `x` is the record stored under its own key. */
    predicate Stored(x: WatchRecord)
      reads this
    {
      x.KeyOf() in records && records[x.KeyOf()] == x
    }

    constructor ()
      ensures Valid() && records == map[] && order == []
    {
      records := map[];
      order := [];
    }

    function Rows(): (rows: seq<WatchRecord>)
      reads this
      requires Valid()
      ensures forall x :: x in rows <==> Stored(x)
      ensures forall i, j :: 0 <= i < j < |rows| ==> rows[i].KeyOf() != rows[j].KeyOf()
    {
      var rows := RowsOf(order, records);
      assert forall x :: Stored(x) ==> x in rows by {
        forall x | Stored(x) ensures x in rows {
          var i :| 0 <= i < |order| && order[i] == x.KeyOf();
          assert rows[i] == x;
        }
      }
      rows
    }

    /**
     * `updateWatchProgress`: upsert by (userId, movieId). An existing record
     * gets the new times, progress, completion and lastPlayedAt and keeps the
     * rest; an absent one is inserted with the schema defaults. No other
     * record changes.
     */
    method UpdateWatchProgress(userId: UserId, movieId: int, currentTime: int, duration: int, now: int)
      returns (r: WatchRecord)
      requires Valid() && duration > 0
      modifies this
      ensures Valid()
      ensures r.KeyOf() == Key(userId, movieId)
      ensures records == old(records)[Key(userId, movieId) := r]
      ensures r.progress == RoundPercent(currentTime, duration)
      ensures r.completed == (r.progress > CompletionThreshold)
      ensures Key(userId, movieId) in old(records) ==>
                r == WithProgress(old(records)[Key(userId, movieId)], currentTime, duration, now)
                && order == old(order)
      ensures Key(userId, movieId) !in old(records) ==>
                r == Inserted(Key(userId, movieId), currentTime, duration, now)
                && order == old(order) + [Key(userId, movieId)]
    {
      var k := Key(userId, movieId);
      if k in records {
        r := WithProgress(records[k], currentTime, duration, now);
      } else {
        r := Inserted(k, currentTime, duration, now);
        order := order + [k];
      }
      records := records[k := r];
    }

    /** `getUserHistory`: the user's records, most recent first, at most `limit` (0: all). */
    function UserHistory(userId: UserId, limit: nat): (r: seq<WatchRecord>)
      reads this
      requires Valid()
      ensures Descending(r)
      ensures forall x :: x in r ==> Stored(x) && x.userId == userId
      ensures limit > 0 ==> |r| <= limit
      ensures forall x, i :: Stored(x) && x.userId == userId && x !in r && 0 <= i < |r| ==>
                x.lastPlayedAt <= r[i].lastPlayedAt
      ensures limit == 0 || |r| < limit ==> forall x :: Stored(x) && x.userId == userId ==> x in r
      ensures forall i, j :: 0 <= i < j < |r| ==> r[i].KeyOf() != r[j].KeyOf()
    {
      var r := Query(Rows(), (x: WatchRecord) => x.userId == userId, limit);
      NoRepeatsKept(Rows(), r);
      r
    }

    /**
     * `getContinueWatching`: the user's records that are not completed and
     * have 0 < progress < 90, most recent first, at most `limit` (0: all).
     */
    function ContinueWatching(userId: UserId, limit: nat): (r: seq<WatchRecord>)
      reads this
      requires Valid()
      ensures Descending(r)
      ensures forall x :: x in r ==> Stored(x) && Resumable(x, userId)
      ensures limit > 0 ==> |r| <= limit
      ensures forall x, i :: Stored(x) && Resumable(x, userId) && x !in r && 0 <= i < |r| ==>
                x.lastPlayedAt <= r[i].lastPlayedAt
      ensures limit == 0 || |r| < limit ==> forall x :: Stored(x) && Resumable(x, userId) ==> x in r
      ensures forall i, j :: 0 <= i < j < |r| ==> r[i].KeyOf() != r[j].KeyOf()
    {
      var r := Query(Rows(), (x: WatchRecord) => Resumable(x, userId), limit);
      NoRepeatsKept(Rows(), r);
      r
    }
  }
}

=== FILE: wrappers.dfy ===
/** Failure-carrying wrappers shared by the three components. */
module Wrappers {

  /** A value that may be absent: JavaScript's `undefined`/`null` for an optional field. */
  datatype Option<+T> = None | Some(value: T)

  /** The outcome of a handler: a payload, or an error that ends the request. */
  datatype Result<+R, +E> = Success(value: R) | Failure(error: E)

  /** The error half of a JSON response: an HTTP status code and the `message` the client sees. */
  datatype HttpError = HttpError(status: int, message: string)

  function Min(a: int, b: int): int
  {
    if a <= b then a else b
  }
}
